=== FILE: README.md ===
# hypertune-go: a Dafny model of the SDK wrapper and the codegen command

The hypertune-go SDK is a thin Go layer over a native flag-evaluation engine.
This project models the decision logic of that layer and of the
`hypertune-go-gen` command, and proves properties of it:

- **Typed accessors** (`node_types.go`, module `NodeTypes`). Every `Get`
  evaluates its node and returns either the coerced value or the caller's
  fallback. A mismatch makes one "unexpected value" log call. The native log
  call ignores its argument (`node.go:155-157`), so logging is a count: each
  `Get` returns `Got(value, logs)`.
- **Nodes** (`node.go`, modules `Nodes` and `NodeIterator`). This covers the
  node-type tags and their two class predicates, building a node from a
  native result, reading a sized string, and the three-way branching of
  `Evaluate`. It also covers the item iterator, run over a script of cursor
  replies and a consumer that may stop early. Native handles and native calls
  are plain values. JSON decoding is a function parameter into `Dynamic`, a
  closed datatype: nil, boolean, number of a given Go kind, string or
  structured.
- **SDK options** (`options.go`, module `Options`). The `With*` setters are
  folded left to right over an all-unset record. The record is then projected
  to the configuration map. Durations are `int64` nanoseconds. They are
  converted to milliseconds with Go's truncating division, written out
  explicitly because Dafny's `/` is Euclidean.
- **Codegen command** (`cmd/hypertune-go-gen/main.go`, module `Codegen`). This
  covers flag validation, SDK-version resolution from the nearest `go.mod`,
  the request and its non-200 handling, and the writing of the returned
  files. The working directory, the files, go.mod parsing, the HTTP exchange,
  response decoding, `go/format` and file writes are all fields of a `Host`
  input. What the command does to the outside world is returned as a trace of
  effects, so ordering claims ("before any request") are claims about that
  trace.

Shared `Option`/`Result` types live in module `Wrappers`.

## Model

| member | source | states |
|---|---|---|
| Nodes.NodeTypeClasses | node.go:32-38 | string types are exactly String and Enum, number types exactly Int and Float; no tag is both, and Object, Bool, Void and Unknown are neither |
| Nodes.ReadSizedString | node.go:159-166 | no string iff the length is 0; otherwise a prefix of the buffer of exactly `length` bytes |
| Nodes.NewNode | node.go:55-65 | handle, error flag and type are copied verbatim; an error result has no enum value and no object type name; otherwise each is present iff its sized string is non-empty, and is then exactly the first `length` bytes of its buffer |
| Nodes.Evaluate | node.go:132-149 | engine failure iff the error flag is set, whatever the buffer; no error and a null or empty buffer gives the nil value; otherwise the first `length` bytes are decoded: a decode failure gives a decode error and a decoded value is returned as decoded |
| NodeTypes.BoolGet | node_types.go:13-26 | at most one log; failure gives the fallback silently; it logs iff the value is not a boolean, and then returns the fallback; a boolean is returned as decoded |
| NodeTypes.IntGet | node_types.go:36-57 | accepts exactly the five numeric forms int, int32, float32, int64, float64 and returns their value; anything else logs once and gives the fallback; failure gives the fallback silently |
| NodeTypes.FloatGet | node_types.go:67-88 | the same five forms are accepted and returned as a float; anything else logs once and gives the fallback; failure gives the fallback silently |
| NodeTypes.StringGet | node_types.go:98-111 | any decoded string, the empty one included, is returned without a log; a non-string logs once and gives the fallback |
| NodeTypes.EnumGet | node_types.go:144-157 | the result is the fallback or a non-empty allowed value; a string is accepted iff it is non-empty and allowed; anything else logs once |
| NodeTypes.VoidGet | node_types.go:121-133 | logs exactly once iff evaluation succeeded and the value is not boolean `true` |
| NodeTypes.FailureIsAbsorbed | node_types.go:14-17 | a failed evaluation, engine or decode error, makes every accessor return its fallback with no log, and Void return silently |
| NodeTypes.AbsentValueIsMismatch | node.go:138-140 | a null or empty buffer with no error is one log plus the fallback for every value accessor, and one log for Void |
| NodeTypes.NativeErrorIgnoresBuffer | node.go:133-136 | with the error flag set the buffer is irrelevant: fallback, no log |
| NodeTypes.EmptyEnumRejected | node_types.go:150-153 | `""` is rejected by the Enum accessor even when it is allowed, while the String accessor returns it |
| NodeTypes.NumericFormsAgree | node_types.go:42-52 | every accepted numeric form of the same number gives the same int and the same float |
| NodeTypes.VoidNeedsTrue | node_types.go:127-132 | `true` is silent; `false` and nil log |
| NodeIterator.Drive | node.go:79-90 | nodes are yielded in cursor order, each built from a reply that neither reports Consumed nor an error; the run ends at the first such reply, Consumed checked first, without yielding its node; a `false` from the consumer ends it right after that node; next calls equal yielded nodes plus one when the cursor ended it |
| NodeIterator.Iterate | node.go:74-78 | a get-items error gives an empty sequence and no next call, and is the only way to end with that outcome |
| NodeIterator.IterateItems | node.go:74-92 | the Go loop computes exactly the run `Iterate` describes |
| NodeIterator.ExhaustionAfterN | node.go:79-83 | a cursor reporting exhaustion after N nodes, read to the end, yields exactly N nodes with N + 1 next calls |
| Options.Apply | options.go:17-51 | each option sets its own field to its argument verbatim and leaves the other four unchanged |
| Options.LastSetting | options.go:55-57 | a field has a last setting iff some option targets it, and it is the payload of an option after which none targets that field |
| Options.ApplyAllSnoc | options.go:55-57 | options are applied left to right: folding one more option is applying it last |
| Options.LastWins | options.go:55-57 | after the fold a field holds its last setting, or its old value when no option targets it |
| Options.Millis | options.go:67-70 | the millisecond value truncates toward zero: the remainder is below one millisecond in size and has the sign of the duration; 0 stays 0 |
| Options.ProjectFields | options.go:59-78 | `language` maps to "go"; a field's key is present iff the field is set and then holds its converted content; no other keys appear |
| Options.ParseOptions | options.go:53-79 | `language` is always "go"; each of the five keys is present iff its option was supplied, with the last supplied value converted; only the six known keys can appear |
| Options.NoOptions | options.go:53-61 | with no options the map is exactly `{"language": "go"}` |
| Options.LaterOptionOverrides | options.go:55-57 | of two settings of a field the later one is the value in the map |
| Codegen.Ancestors | cmd/hypertune-go-gen/main.go:177-183 | the directories examined are the working directory and its successive parents, "/" excluded |
| Codegen.SearchGoMod | cmd/hypertune-go-gen/main.go:176-186 | examines a prefix of those directories, never "/"; stops at the first one with a readable go.mod; finding none means every directory was examined and none had one |
| Codegen.IndexOfRequire | cmd/hypertune-go-gen/main.go:191-196 | no index iff no require names the SDK's module path; otherwise the index of the first one that does |
| Codegen.TrimV | cmd/hypertune-go-gen/main.go:197 | one leading "v" is removed when present, otherwise the version is unchanged |
| Codegen.TrimVExamples | cmd/hypertune-go-gen/main.go:197 | "v1.2.3" becomes "1.2.3" and "vv1" becomes "v1": at most one "v" goes |
| Codegen.GoSuffixIsGoExtension | cmd/hypertune-go-gen/main.go:145 | a name ending in ".go" has the extension ".go" |
| Codegen.ExtBeforeShape | cmd/hypertune-go-gen/main.go:145 | the extension scan returns the suffix from a "." after which, up to where the scan started, there is no "." and no separator |
| Codegen.ExtShape | cmd/hypertune-go-gen/main.go:145 | a non-empty extension starts with ".", is a suffix of the name, and holds no separator and no further "." |
| Codegen.GoExtension | cmd/hypertune-go-gen/main.go:145 | a file name has extension ".go" exactly when it ends in ".go" |
| Codegen.ResolveSdkVersion | cmd/hypertune-go-gen/main.go:168-199 | a non-empty explicit version is used unchanged with no search; a working-directory failure is an error after one lookup; when no go.mod is found, every ancestor was read and the result is the not-found error; a nearest go.mod that does not parse gives the parse error naming it; resolution only gets the working directory and reads go.mod files, and its failures are version errors |
| Codegen.VersionFromNearestGoMod | cmd/hypertune-go-gen/main.go:176-197 | the go.mod used is the nearest readable one; without the SDK's require the result is the missing-dependency error naming that go.mod, otherwise the first such require's version without its leading "v" |
| Codegen.BuildRequest | cmd/hypertune-go-gen/main.go:203-217 | the SDK type and language are both "go"; the query, resolved version, package name, token and branch are passed through; `includeFallback` carries the `includeInitData` flag |
| Codegen.DoCodegenRequest | cmd/hypertune-go-gen/main.go:226-241 | a transport failure is an error; a non-200 reply gives an error carrying the status and raw body; a 200 reply whose body does not decode gives the decode error; a 200 reply whose body decodes gives exactly the decoded response, and success needs such a reply |
| Codegen.Non200IgnoresDecoder | cmd/hypertune-go-gen/main.go:232-235 | a non-200 body is never decoded: the outcome does not depend on the decoder |
| Codegen.Prepared | cmd/hypertune-go-gen/main.go:145-150 | only ".go" files are formatted; a formatting failure keeps the received content |
| Codegen.WritesAt | cmd/hypertune-go-gen/main.go:151-155 | in the effects of writing the files, positions 2i and 2i + 1 are the write of the i-th file (prepared content at its joined path) and its announcement |
| Codegen.FirstUnwritable | cmd/hypertune-go-gen/main.go:151-153 | none iff every joined path is writable; otherwise the first index whose path is not writable |
| Codegen.WriteFiles | cmd/hypertune-go-gen/main.go:144-156 | success iff every file is writable, and then every file is written in response order; otherwise the run ends at the first unwritable file with an error naming it, after exactly the files before it were written |
| Codegen.SendAndWrite | cmd/hypertune-go-gen/main.go:136-156 | the request comes first and nothing follows it unless the reply was 200; a request error ends the run after the request alone; a failed MkdirAll ends it with no write; otherwise the directory is created and the decoded files are written |
| Codegen.FetchAndWrite | cmd/hypertune-go-gen/main.go:122-156 | a named query file is read before anything else, and an unreadable one ends the run with no request; an unparsable base URL ends it with the URL error after only the query read, so no request, directory or file; otherwise the one request sent is the one built from the flags and version |
| Codegen.Run | cmd/hypertune-go-gen/main.go:110-166 | an empty output directory is rejected first, then an empty package name, with no effect; once both flags are present, a version failure ends the run with that failure after only the resolution's effects, and a resolved version leads into fetching and writing with that version after them; an explicit version means no go.mod search and is the one sent |
| Codegen.MissingDependencyStopsRun | cmd/hypertune-go-gen/main.go:191-196 | a go.mod without the SDK's require fails the run with that error and no request or query read |
| Codegen.SingleGoFileWritten | cmd/hypertune-go-gen/main.go:141-156 | one "client.go" in a 200 reply is formatted, written under the output directory and announced, and the run succeeds |
| Codegen.Non200StopsRun | cmd/hypertune-go-gen/main.go:232-235 | a non-200 reply fails the run with its status and body, and no directory is created and no file written |

## Left out

- Native calls (`node_get_field`, `node_get_items`, `node_iterator_next`,
  `node_evaluate`, `create`, `node_close`, `node_free`, `node_flush_logs`,
  `wait_for_initialization`, the log hooks) are opaque engine behaviour. Their
  results are inputs of the model.
- `Close`, `WaitForInitialization`, `FlushLogs`, `LogUnexpectedTypeError` and
  finalizers are about resource lifetime, blocking and the garbage collector.
  They are not modelled.
- `GetField` and `GetFieldWithJSONArguments` only marshal arguments and wrap
  the native result with `newNode`, which is modelled. The panic on a JSON
  marshal failure is not modelled.
- `Create` in sdk.go only marshals strings for the native constructor. Its
  only logic is `parseOptions`, which is modelled.
- JSON encoding and decoding are not modelled. Decoding is a function
  parameter of `Nodes.Evaluate`, and the codegen response decoder is a field
  of `Codegen.Host`.
- NodeTypes.IntGet: numbers are integer-valued, so `int(float64)` truncation,
  float32 widening and the range of each Go integer type are not modelled.
- NodeTypes.FloatGet: the result is the exact value as a `real`, with no
  floating-point rounding.
- The argument passed to `LogUnexpectedValueError` is not modelled, because
  the native call ignores it. So the String and Enum accessors logging the
  zero string instead of the decoded value makes no difference.
- Purity makes the rule "a `Get` never changes its node or its allowed
  values" hold by construction, so there is no lemma for it.
- Nodes.ReadSizedString and Nodes.Evaluate require the length not to exceed
  the buffer. Nodes.NewNode requires the same of both metadata strings,
  through `WellFormedResult`. NodeIterator.Drive, NodeIterator.Iterate and
  NodeIterator.IterateItems require it of every cursor reply's node, through
  `WellFormedScript`. The native library guarantees this. Out-of-range slicing (a Go
  panic) is not modelled.
- NodeIterator.Drive: a cursor script that runs out before a terminating
  reply ends with `ScriptExhausted`. This outcome does not exist in Go, where
  the native cursor would be asked again.
- The iterator consumer is a function of position and node. A consumer with
  side effects beyond its answer is not modelled.
- Options: only the five `With*` constructors are modelled as options. Other
  functions of the exported `Option` type cannot reach the unexported record's
  fields in a meaningful way.
- Codegen: `Join` is `dir + "/" + name` without `filepath.Clean`. Paths of
  the go.mod search are cleaned absolute paths given as component lists. A
  go.mod that opens but cannot be read is not modelled.
- Codegen: flag parsing (`urfave/cli`, the required `--token`, defaults,
  environment variables), signal handling, URL query building and escaping,
  and the request-body marshal error are not modelled. URL parsing is a
  success flag.
- Printing of diagnostic messages (main.go:157-164) is not modelled. The code
  prints the level twice instead of the message. This is a formatting detail.

=== FILE: codegen.dfy ===
/**
 * The control flow of the hypertune-go-gen command (cmd/hypertune-go-gen/main.go):
 * flag validation, SDK-version resolution from the nearest go.mod, the codegen
 * request and the writing of the returned files. The working directory, the
 * file system, go.mod parsing, the HTTP exchange, response decoding, the Go
 * formatter and file writes are inputs (`Host`); what the command does to the
 * outside world is recorded as a trace of effects.
 */
module Codegen {
  import opened Wrappers

  const HypertuneGoPath: string := "github.com/hypertunehq/hypertune-go"

  /** A cleaned absolute directory as its components; `Root` is "/". */
  type Path = seq<string>

  const Root: Path := []

  /** `filepath.Dir` on a cleaned absolute directory other than "/". */
  function Parent(dir: Path): Path
    requires dir != Root
  {
    dir[..|dir| - 1]
  }

  /** `filepath.Join(dir, "go.mod")`. */
  function GoModIn(dir: Path): Path {
    dir + ["go.mod"]
  }

  /** The directories the upward search may examine, nearest first: `dir` and
      each of its parents, "/" excluded. */
  function Ancestors(dir: Path): (r: seq<Path>)
    decreases |dir|
    ensures |r| == |dir|
    ensures forall i :: 0 <= i < |r| ==> r[i] == dir[..|dir| - i]
  {
    if dir == Root then [] else [dir] + Ancestors(Parent(dir))
  }

  /** The directories whose go.mod was read, and the directory where a
      readable one was found, if any. */
  datatype Search = Search(examined: seq<Path>, found: Option<Path>)

  /** The loop `for dir != "/"` of parseSdkVersion over the readable files
      `fs`: it stops at the first directory holding a readable go.mod. */
  function SearchGoMod(dir: Path, fs: map<Path, string>): (s: Search)
    decreases |dir|
    ensures s.examined <= Ancestors(dir)
    ensures Root !in s.examined
    ensures s.found.None? ==> s.examined == Ancestors(dir)
    ensures s.found.Some? ==>
              |s.examined| > 0 && s.found.value == s.examined[|s.examined| - 1]
              && GoModIn(s.found.value) in fs
    ensures forall i :: 0 <= i < |s.examined| && (s.found.None? || i < |s.examined| - 1) ==>
              GoModIn(s.examined[i]) !in fs
  {
    if dir == Root then
      Search([], None)
    else if GoModIn(dir) in fs then
      Search([dir], Some(dir))
    else
      var rest := SearchGoMod(Parent(dir), fs);
      Search([dir] + rest.examined, rest.found)
  }

  /** A `require` line of a parsed go.mod. */
  datatype Require = Require(path: string, version: string)

  /** `slices.IndexFunc` for the SDK's own module path. */
  function IndexOfRequire(reqs: seq<Require>): (r: Option<nat>)
    ensures r.None? <==> forall i :: 0 <= i < |reqs| ==> reqs[i].path != HypertuneGoPath
    ensures r.Some? ==>
              r.value < |reqs| && reqs[r.value].path == HypertuneGoPath
              && forall j :: 0 <= j < r.value ==> reqs[j].path != HypertuneGoPath
  {
    if reqs == [] then None
    else if reqs[0].path == HypertuneGoPath then Some(0)
    else match IndexOfRequire(reqs[1..])
      case None => None
      case Some(i) => Some(i + 1)
  }

  /** `strings.TrimPrefix(version, "v")`: at most one leading "v" goes. */
  function TrimV(version: string): (r: string)
    ensures |version| > 0 && version[0] == 'v' ==> version == "v" + r
    ensures !(|version| > 0 && version[0] == 'v') ==> r == version
  {
    if |version| > 0 && version[0] == 'v' then version[1..] else version
  }

  lemma TrimVExamples()
    ensures TrimV("v1.2.3") == "1.2.3"
    ensures TrimV("1.2.3") == "1.2.3"
    ensures TrimV("vv1") == "v1"
  {
  }

  /** `filepath.Ext` (Unix separators): the suffix from the last "." of the
      final path element, or "" when that element has no ".". */
  function Ext(path: string): string {
    ExtBefore(path, |path|)
  }

  /** A non-empty extension starts with "." and is a suffix of the path with
      no separator and no further ".". */
  lemma ExtShape(path: string)
    ensures var r := Ext(path);
            r != "" ==> r[0] == '.' && |r| <= |path| && r == path[|path| - |r|..] && '/' !in r && '.' !in r[1..]
  {
    ExtBeforeShape(path, |path|);
  }

  /** `Ext` scanning positions below `i` from right to left. */
  function ExtBefore(path: string, i: nat): (r: string)
    requires i <= |path|
    decreases i
  {
    if i == 0 || path[i - 1] == '/' then ""
    else if path[i - 1] == '.' then path[i - 1..]
    else ExtBefore(path, i - 1)
  }

  /** A non-empty result starts at a "." below `i`, after which no "." or
      separator occurs below `i`. */
  lemma {:induction false} ExtBeforeShape(path: string, i: nat)
    requires i <= |path|
    decreases i
    ensures var r := ExtBefore(path, i);
            r != "" ==>
              var j := |path| - |r|;
              && 0 <= j < i && path[j] == '.' && r == path[j..]
              && forall k :: j < k < i ==> path[k] != '.' && path[k] != '/'
  {
    if i > 0 && path[i - 1] != '/' && path[i - 1] != '.' {
      ExtBeforeShape(path, i - 1);
    }
  }

  /** A name ending in ".go" has the extension ".go". */
  lemma GoSuffixIsGoExtension(name: string)
    requires |name| >= 3 && name[|name| - 3..] == ".go"
    ensures Ext(name) == ".go"
  {
    var n := |name|;
    assert name[n - 3] == name[n - 3..][0] == '.';
    assert name[n - 2] == name[n - 3..][1] == 'g';
    assert name[n - 1] == name[n - 3..][2] == 'o';
    assert ExtBefore(name, n - 2) == name[n - 3..];
    assert ExtBefore(name, n - 1) == ExtBefore(name, n - 2);
    assert ExtBefore(name, n) == ExtBefore(name, n - 1);
  }

  /** Exactly the names that end in ".go" have the extension ".go". */
  lemma GoExtension(name: string)
    ensures Ext(name) == ".go" <==> |name| >= 3 && name[|name| - 3..] == ".go"
  {
    var n := |name|;
    if n >= 3 && name[n - 3..] == ".go" {
      GoSuffixIsGoExtension(name);
    }
    ExtShape(name);
  }

  /** The command-line flags, after flag parsing and defaults. */
  datatype Flags = Flags(
    edgeBaseURL: string,
    sdkVersion: string,
    outputFileDir: string,
    queryFilePath: string,
    token: string,
    branchName: string,
    packageName: string,
    includeToken: bool,
    includeInitData: bool)

  /** The codegen request: the JSON body's fields plus the `token` and `branch`
      query parameters. */
  datatype Request = Request(
    sdkType: string,
    language: string,
    query: Option<string>,
    includeToken: bool,
    includeFallback: bool,
    sdkVersion: string,
    packageName: string,
    token: string,
    branch: string)

  datatype HttpReply = TransportFailure | Reply(status: int, body: string)

  datatype CodegenFile = CodegenFile(name: string, content: string)

  datatype CodegenMessage = CodegenMessage(level: string, message: string)

  datatype CodegenResponse = CodegenResponse(files: seq<CodegenFile>, messages: seq<CodegenMessage>)

  /** Everything the command learns from outside its own code. */
  datatype Host = Host(
    cwd: Option<Path>,                                  // os.Getwd
    fs: map<Path, string>,                              // readable files
    parseGoMod: string -> Option<seq<Require>>,         // modfile.Parse
    queryFile: Option<string>,                          // os.ReadFile(queryFilePath)
    edgeURLParses: bool,                                // url.Parse(edgeBaseURL)
    send: Request -> HttpReply,                         // the HTTP GET
    decodeResponse: string -> Option<CodegenResponse>,  // JSON decoding of the body
    format: string -> Option<string>,                   // format.Source
    mkdirSucceeds: bool,                                // os.MkdirAll
    writable: string -> bool)                           // os.WriteFile succeeds

  datatype Effect =
    | GetWd
    | ReadGoMod(goMod: Path)
    | ReadQueryFile(name: string)
    | HttpGet(req: Request)
    | MkdirAll(dir: string)
    | WriteFile(path: string, content: string)
    | Announce(path: string)   // "Created file <path>"

  datatype VersionError =
    | WorkingDirUnavailable
    | GoModNotFound
    | GoModUnparsable(goMod: Path)
    | DependencyMissing(goMod: Path)

  datatype CliError =
    | OutputDirMissing
    | PackageNameMissing
    | SdkVersionFailed(cause: VersionError)
    | QueryFileUnreadable(name: string)
    | EdgeURLInvalid
    | RequestFailed
    | CodegenStatus(code: int, body: string)
    | ResponseUndecodable
    | MkdirFailed(dir: string)
    | WriteFailed(name: string)

  datatype Resolution = Resolution(trace: seq<Effect>, version: Result<string, CliError>)

  function GoModReads(dirs: seq<Path>): (t: seq<Effect>)
    ensures |t| == |dirs| && forall i :: 0 <= i < |dirs| ==> t[i] == ReadGoMod(GoModIn(dirs[i]))
  {
    seq(|dirs|, i requires 0 <= i < |dirs| => ReadGoMod(GoModIn(dirs[i])))
  }

  /** parseSdkVersion: an explicit version is kept as given; otherwise the
      version comes from the first require of the SDK in the nearest go.mod,
      with one leading "v" removed. */
  function ResolveSdkVersion(explicit: string, host: Host): (r: Resolution)
    ensures explicit != "" ==> r == Resolution([], Ok(explicit))
    ensures forall e :: e in r.trace ==> e.GetWd? || e.ReadGoMod?
    ensures r.version.Err? ==> r.version.error.SdkVersionFailed?
    ensures explicit == "" && host.cwd.None? ==>
              r == Resolution([GetWd], Err(SdkVersionFailed(WorkingDirUnavailable)))
    ensures explicit == "" && host.cwd.Some? && SearchGoMod(host.cwd.value, host.fs).found.None? ==>
              r == Resolution([GetWd] + GoModReads(Ancestors(host.cwd.value)), Err(SdkVersionFailed(GoModNotFound)))
    ensures explicit == "" && host.cwd.Some? ==>
              r.trace == [GetWd] + GoModReads(SearchGoMod(host.cwd.value, host.fs).examined)
    ensures explicit == "" && host.cwd.Some? && SearchGoMod(host.cwd.value, host.fs).found.Some? ==>
              var goMod := GoModIn(SearchGoMod(host.cwd.value, host.fs).found.value);
              host.parseGoMod(host.fs[goMod]).None? ==>
                r.version == Err(SdkVersionFailed(GoModUnparsable(goMod)))
  {
    if explicit != "" then
      Resolution([], Ok(explicit))
    else match host.cwd
      case None => Resolution([GetWd], Err(SdkVersionFailed(WorkingDirUnavailable)))
      case Some(dir) =>
        var s := SearchGoMod(dir, host.fs);
        var trace := [GetWd] + GoModReads(s.examined);
        if s.found.None? then
          Resolution(trace, Err(SdkVersionFailed(GoModNotFound)))
        else
          var goMod := GoModIn(s.found.value);
          match host.parseGoMod(host.fs[goMod])
          case None => Resolution(trace, Err(SdkVersionFailed(GoModUnparsable(goMod))))
          case Some(reqs) =>
            match IndexOfRequire(reqs)
            case None => Resolution(trace, Err(SdkVersionFailed(DependencyMissing(goMod))))
            case Some(i) => Resolution(trace, Ok(TrimV(reqs[i].version)))
  }

  /** The version comes from the nearest readable go.mod and its first
      require of the SDK. */
  lemma VersionFromNearestGoMod(host: Host, dir: Path, reqs: seq<Require>)
    requires host.cwd == Some(dir)
    requires SearchGoMod(dir, host.fs).found.Some?
    requires host.parseGoMod(host.fs[GoModIn(SearchGoMod(dir, host.fs).found.value)]) == Some(reqs)
    ensures var r := ResolveSdkVersion("", host);
            var found := SearchGoMod(dir, host.fs).found.value;
            && found in Ancestors(dir)
            && (forall a :: a in Ancestors(dir) && |a| > |found| ==> GoModIn(a) !in host.fs)
            && (IndexOfRequire(reqs).None? <==> r.version == Err(SdkVersionFailed(DependencyMissing(GoModIn(found)))))
            && (IndexOfRequire(reqs).Some? ==>
                  r.version == Ok(TrimV(reqs[IndexOfRequire(reqs).value].version)))
  {
  }

  /** The codegen request built from the flags and the resolved version. */
  function BuildRequest(flags: Flags, version: string, query: Option<string>): (req: Request)
    ensures req.sdkType == "go" && req.language == "go"
    ensures req.query == query && req.sdkVersion == version
    ensures req.includeToken == flags.includeToken && req.includeFallback == flags.includeInitData
    ensures req.packageName == flags.packageName && req.token == flags.token && req.branch == flags.branchName
  {
    Request("go", "go", query, flags.includeToken, flags.includeInitData,
            version, flags.packageName, flags.token, flags.branchName)
  }

  /** doCodegenRequest after the request is sent: a non-200 reply is an error
      carrying the status and raw body; only a 200 body is decoded. */
  function DoCodegenRequest(req: Request, host: Host): (r: Result<CodegenResponse, CliError>)
    ensures host.send(req).TransportFailure? ==> r == Err(RequestFailed)
    ensures host.send(req).Reply? && host.send(req).status != 200 ==>
              r == Err(CodegenStatus(host.send(req).status, host.send(req).body))
    ensures r.Ok? ==> host.send(req).Reply? && host.send(req).status == 200
                      && host.decodeResponse(host.send(req).body) == Some(r.value)
    ensures host.send(req).Reply? && host.send(req).status == 200
            && host.decodeResponse(host.send(req).body).Some? ==>
              r == Ok(host.decodeResponse(host.send(req).body).value)
    ensures host.send(req).Reply? && host.send(req).status == 200
            && host.decodeResponse(host.send(req).body).None?
            ==> r == Err(ResponseUndecodable)
    ensures r.Err? ==> r.error.RequestFailed? || r.error.CodegenStatus? || r.error.ResponseUndecodable?
  {
    match host.send(req)
    case TransportFailure => Err(RequestFailed)
    case Reply(status, body) =>
      if status != 200 then Err(CodegenStatus(status, body))
      else match host.decodeResponse(body)
        case None => Err(ResponseUndecodable)
        case Some(resp) => Ok(resp)
  }

  /** A non-200 reply is never decoded: the decoder does not matter. */
  lemma Non200IgnoresDecoder(req: Request, host: Host, decoder: string -> Option<CodegenResponse>)
    requires host.send(req).Reply? && host.send(req).status != 200
    ensures DoCodegenRequest(req, host.(decodeResponse := decoder)) == DoCodegenRequest(req, host)
  {
  }

  /** `filepath.Join(outputFileDir, name)`, without lexical cleaning. */
  function Join(dir: string, name: string): string {
    dir + "/" + name
  }

  /** The content written for a file: Go sources are formatted, and a
      formatting failure keeps the received content. */
  function Prepared(f: CodegenFile, format: string -> Option<string>): (content: string)
    ensures Ext(f.name) != ".go" ==> content == f.content
    ensures format(f.content).None? ==> content == f.content
    ensures Ext(f.name) == ".go" && format(f.content).Some? ==> content == format(f.content).value
  {
    if Ext(f.name) == ".go" then
      match format(f.content)
      case Some(formatted) => formatted
      case None => f.content
    else
      f.content
  }

  /** The outcome of a run: the effects performed, in order, and the error
      that ended it, if any. */
  datatype RunOutcome = RunOutcome(trace: seq<Effect>, result: Result<(), CliError>)

  function Then(done: seq<Effect>, o: RunOutcome): RunOutcome {
    RunOutcome(done + o.trace, o.result)
  }

  /** Writing one file: its prepared content goes to the joined path, then
      the path is announced. */
  function FileEffects(dir: string, f: CodegenFile, host: Host): seq<Effect> {
    var path := Join(dir, f.name);
    [WriteFile(path, Prepared(f, host.format)), Announce(path)]
  }

  /** The effects of writing `files` in order. */
  function Writes(dir: string, files: seq<CodegenFile>, host: Host): (t: seq<Effect>)
    decreases |files|
    ensures |t| == 2 * |files|
    ensures forall e :: e in t ==> e.WriteFile? || e.Announce?
  {
    if files == [] then [] else FileEffects(dir, files[0], host) + Writes(dir, files[1..], host)
  }

  /** The `i`-th file's write and announcement sit at positions 2i and 2i + 1. */
  lemma {:induction false} WritesAt(dir: string, files: seq<CodegenFile>, host: Host, i: nat)
    requires i < |files|
    ensures Writes(dir, files, host)[2 * i] == FileEffects(dir, files[i], host)[0]
    ensures Writes(dir, files, host)[2 * i + 1] == FileEffects(dir, files[i], host)[1]
    decreases i
  {
    var head := FileEffects(dir, files[0], host);
    var rest := Writes(dir, files[1..], host);
    assert Writes(dir, files, host) == head + rest;
    if i > 0 {
      WritesAt(dir, files[1..], host, i - 1);
      assert files[1..][i - 1] == files[i];
      ShiftPast(head, rest, 2 * (i - 1));
    }
  }

  /** Indexing past a two-element head. */
  lemma ShiftPast<T>(head: seq<T>, rest: seq<T>, k: nat)
    requires |head| == 2 && k + 1 < |rest|
    ensures (head + rest)[k + 2] == rest[k] && (head + rest)[k + 3] == rest[k + 1]
  {
  }

  /** The first file whose joined path cannot be written, if any. */
  function FirstUnwritable(dir: string, files: seq<CodegenFile>, host: Host): (r: Option<nat>)
    decreases |files|
    ensures r.None? <==> forall i :: 0 <= i < |files| ==> host.writable(Join(dir, files[i].name))
    ensures r.Some? ==>
              r.value < |files| && !host.writable(Join(dir, files[r.value].name))
              && forall j :: 0 <= j < r.value ==> host.writable(Join(dir, files[j].name))
  {
    if files == [] then None
    else if !host.writable(Join(dir, files[0].name)) then Some(0)
    else match FirstUnwritable(dir, files[1..], host)
      case None => None
      case Some(i) => Some(i + 1)
  }

  /** The file-writing loop of run: files in response order; the first
      unwritable file ends the run, after exactly the earlier files were
      written. */
  function WriteFiles(dir: string, files: seq<CodegenFile>, host: Host): (o: RunOutcome)
    decreases |files|
    ensures o.result.Ok? <==> forall i :: 0 <= i < |files| ==> host.writable(Join(dir, files[i].name))
    ensures FirstUnwritable(dir, files, host).None? ==> o == RunOutcome(Writes(dir, files, host), Ok(()))
    ensures FirstUnwritable(dir, files, host).Some? ==>
              var n := FirstUnwritable(dir, files, host).value;
              o == RunOutcome(Writes(dir, files[..n], host), Err(WriteFailed(files[n].name)))
  {
    if files == [] then
      RunOutcome([], Ok(()))
    else
      var path := Join(dir, files[0].name);
      if !host.writable(path) then
        assert files[..0] == [];
        RunOutcome([], Err(WriteFailed(files[0].name)))
      else
        var rest := WriteFiles(dir, files[1..], host);
        var o := Then(FileEffects(dir, files[0], host), rest);
        assert FirstUnwritable(dir, files, host).Some? ==>
                 var n := FirstUnwritable(dir, files, host).value;
                 o == RunOutcome(Writes(dir, files[..n], host), Err(WriteFailed(files[n].name)))
        by {
          if FirstUnwritable(dir, files, host).Some? {
            var m := FirstUnwritable(dir, files[1..], host).value;
            assert files[..m + 1][1..] == files[1..][..m];
          }
        }
        o
  }

  /** The query text sent: the query file's content when a path is given. */
  function QueryOf(flags: Flags, host: Host): Option<string> {
    if flags.queryFilePath != "" then host.queryFile else None
  }

  function QueryReads(flags: Flags): seq<Effect> {
    if flags.queryFilePath != "" then [ReadQueryFile(flags.queryFilePath)] else []
  }

  function RequestFor(flags: Flags, version: string, host: Host): Request {
    BuildRequest(flags, version, QueryOf(flags, host))
  }

  /** The request and what follows it: on a 200 reply the output directory
      is created and the files are written in response order. */
  function SendAndWrite(dir: string, req: Request, host: Host): (o: RunOutcome)
    ensures |o.trace| > 0 && o.trace[0] == HttpGet(req)
    ensures forall e :: e in o.trace ==> e.HttpGet? || e.MkdirAll? || e.WriteFile? || e.Announce?
    ensures forall e :: e in o.trace && e.HttpGet? ==> e.req == req
    ensures o.result.Err? ==> !o.result.error.SdkVersionFailed?
    ensures |o.trace| > 1 ==> host.send(req).Reply? && host.send(req).status == 200
    ensures o.result.Ok? ==>
              DoCodegenRequest(req, host).Ok?
              && o.trace == [HttpGet(req), MkdirAll(dir)] + Writes(dir, DoCodegenRequest(req, host).value.files, host)
    ensures DoCodegenRequest(req, host).Err? ==>
              o == RunOutcome([HttpGet(req)], Err(DoCodegenRequest(req, host).error))
    ensures DoCodegenRequest(req, host).Ok? && !host.mkdirSucceeds ==>
              o == RunOutcome([HttpGet(req)], Err(MkdirFailed(dir)))
    ensures DoCodegenRequest(req, host).Ok? && host.mkdirSucceeds ==>
              o == Then([HttpGet(req), MkdirAll(dir)], WriteFiles(dir, DoCodegenRequest(req, host).value.files, host))
  {
    match DoCodegenRequest(req, host)
    case Err(e) => RunOutcome([HttpGet(req)], Err(e))
    case Ok(resp) =>
      if !host.mkdirSucceeds then
        RunOutcome([HttpGet(req)], Err(MkdirFailed(dir)))
      else
        var w := WriteFiles(dir, resp.files, host);
        Then([HttpGet(req), MkdirAll(dir)], w)
  }

  /** run, from the point the version is known: the query file is read first
      when a path is given, then the one request is sent. */
  function FetchAndWrite(flags: Flags, version: string, host: Host): (o: RunOutcome)
    ensures forall e :: e in o.trace ==> !e.GetWd? && !e.ReadGoMod?
    ensures o.result.Err? ==> !o.result.error.SdkVersionFailed?
    ensures flags.queryFilePath != "" ==> |o.trace| > 0 && o.trace[0] == ReadQueryFile(flags.queryFilePath)
    ensures flags.queryFilePath == "" ==> forall e :: e in o.trace ==> !e.ReadQueryFile?
    ensures flags.queryFilePath != "" && host.queryFile.None? ==>
              o == RunOutcome([ReadQueryFile(flags.queryFilePath)], Err(QueryFileUnreadable(flags.queryFilePath)))
    ensures !(flags.queryFilePath != "" && host.queryFile.None?) && !host.edgeURLParses ==>
              o.result == Err(EdgeURLInvalid) && forall e :: e in o.trace ==> !e.HttpGet?
    ensures !(flags.queryFilePath != "" && host.queryFile.None?) && !host.edgeURLParses ==>
              o == RunOutcome(QueryReads(flags), Err(EdgeURLInvalid))
    ensures !(flags.queryFilePath != "" && host.queryFile.None?) && host.edgeURLParses ==>
              o == Then(QueryReads(flags), SendAndWrite(flags.outputFileDir, RequestFor(flags, version, host), host))
    ensures forall e :: e in o.trace && e.HttpGet? ==> e.req == RequestFor(flags, version, host)
    ensures o.result.Ok? ==>
              o.trace == QueryReads(flags) + SendAndWrite(flags.outputFileDir, RequestFor(flags, version, host), host).trace
  {
    var t := QueryReads(flags);
    if flags.queryFilePath != "" && host.queryFile.None? then
      RunOutcome(t, Err(QueryFileUnreadable(flags.queryFilePath)))
    else if !host.edgeURLParses then
      RunOutcome(t, Err(EdgeURLInvalid))
    else
      Then(t, SendAndWrite(flags.outputFileDir, RequestFor(flags, version, host), host))
  }

  /** run: both required flags are checked, in this order, before anything
      else happens; a version that cannot be resolved ends the run before the
      query file is read or any request is made; an explicit version is sent
      as given without looking for go.mod. */
  function Run(flags: Flags, host: Host): (o: RunOutcome)
    ensures flags.outputFileDir == "" ==> o == RunOutcome([], Err(OutputDirMissing))
    ensures flags.outputFileDir != "" && flags.packageName == "" ==>
              o == RunOutcome([], Err(PackageNameMissing))
    ensures o.result.Err? && o.result.error.SdkVersionFailed? ==>
              forall e :: e in o.trace ==> e.GetWd? || e.ReadGoMod?
    ensures flags.sdkVersion != "" ==>
              forall e :: e in o.trace ==> !e.GetWd? && !e.ReadGoMod?
                                           && (e.HttpGet? ==> e.req.sdkVersion == flags.sdkVersion)
    ensures forall e :: e in o.trace && e.HttpGet? ==>
              && ResolveSdkVersion(flags.sdkVersion, host).version.Ok?
              && e.req == RequestFor(flags, ResolveSdkVersion(flags.sdkVersion, host).version.value, host)
    ensures flags.outputFileDir != "" && flags.packageName != "" ==>
              var res := ResolveSdkVersion(flags.sdkVersion, host);
              && (res.version.Err? ==> o == RunOutcome(res.trace, Err(res.version.error)))
              && (res.version.Ok? ==> o == Then(res.trace, FetchAndWrite(flags, res.version.value, host)))
  {
    if flags.outputFileDir == "" then
      RunOutcome([], Err(OutputDirMissing))
    else if flags.packageName == "" then
      RunOutcome([], Err(PackageNameMissing))
    else
      var res := ResolveSdkVersion(flags.sdkVersion, host);
      match res.version
      case Err(e) => RunOutcome(res.trace, Err(e))
      case Ok(version) => Then(res.trace, FetchAndWrite(flags, version, host))
  }

  /** A go.mod without the SDK's require fails the run before any request. */
  lemma MissingDependencyStopsRun(flags: Flags, host: Host, dir: Path, reqs: seq<Require>)
    requires flags.outputFileDir != "" && flags.packageName != "" && flags.sdkVersion == ""
    requires host.cwd == Some(dir)
    requires SearchGoMod(dir, host.fs).found.Some?
    requires host.parseGoMod(host.fs[GoModIn(SearchGoMod(dir, host.fs).found.value)]) == Some(reqs)
    requires forall i :: 0 <= i < |reqs| ==> reqs[i].path != HypertuneGoPath
    ensures Run(flags, host).result
            == Err(SdkVersionFailed(DependencyMissing(GoModIn(SearchGoMod(dir, host.fs).found.value))))
    ensures forall e :: e in Run(flags, host).trace ==> !e.HttpGet? && !e.ReadQueryFile?
  {
  }

  /** A single Go file in a 200 reply is formatted, written under the output
      directory and announced, and the run succeeds. */
  lemma SingleGoFileWritten(flags: Flags, host: Host, version: string, formatted: string)
    requires flags.outputFileDir != "" && flags.packageName != "" && flags.queryFilePath == ""
    requires ResolveSdkVersion(flags.sdkVersion, host).version == Ok(version)
    requires host.edgeURLParses && host.mkdirSucceeds
    requires DoCodegenRequest(RequestFor(flags, version, host), host)
             == Ok(CodegenResponse([CodegenFile("client.go", "package x")], []))
    requires host.format("package x") == Some(formatted)
    requires host.writable(Join(flags.outputFileDir, "client.go"))
    ensures Run(flags, host).result == Ok(())
    ensures Run(flags, host).trace
            == ResolveSdkVersion(flags.sdkVersion, host).trace
               + [HttpGet(RequestFor(flags, version, host)), MkdirAll(flags.outputFileDir),
                  WriteFile(Join(flags.outputFileDir, "client.go"), formatted),
                  Announce(Join(flags.outputFileDir, "client.go"))]
  {
    SingleGoFileFetched(flags, version, host, formatted);
  }

  /** The part of `SingleGoFileWritten` after the version is known. */
  lemma SingleGoFileFetched(flags: Flags, version: string, host: Host, formatted: string)
    requires flags.queryFilePath == "" && host.edgeURLParses && host.mkdirSucceeds
    requires DoCodegenRequest(RequestFor(flags, version, host), host)
             == Ok(CodegenResponse([CodegenFile("client.go", "package x")], []))
    requires host.format("package x") == Some(formatted)
    requires host.writable(Join(flags.outputFileDir, "client.go"))
    ensures FetchAndWrite(flags, version, host)
            == RunOutcome([HttpGet(RequestFor(flags, version, host)), MkdirAll(flags.outputFileDir),
                           WriteFile(Join(flags.outputFileDir, "client.go"), formatted),
                           Announce(Join(flags.outputFileDir, "client.go"))], Ok(()))
  {
    var dir := flags.outputFileDir;
    var req := RequestFor(flags, version, host);
    var f := CodegenFile("client.go", "package x");
    GoClientPrepared(f, host.format, formatted);
    OneFileWritten(dir, f, host);
    assert SendAndWrite(dir, req, host) == Then([HttpGet(req), MkdirAll(dir)], RunOutcome(FileEffects(dir, f, host), Ok(())));
  }

  lemma GoClientPrepared(f: CodegenFile, format: string -> Option<string>, formatted: string)
    requires f.name == "client.go" && format(f.content) == Some(formatted)
    ensures Prepared(f, format) == formatted
  {
    GoSuffixIsGoExtension(f.name);
  }

  /** Writing a single writable file. */
  lemma OneFileWritten(dir: string, f: CodegenFile, host: Host)
    requires host.writable(Join(dir, f.name))
    ensures WriteFiles(dir, [f], host) == RunOutcome(FileEffects(dir, f, host), Ok(()))
  {
    assert [f][1..] == [];
  }

  /** A non-200 reply ends the run with its status and raw body; nothing is
      written and the output directory is not created. */
  lemma Non200StopsRun(flags: Flags, host: Host, version: string)
    requires flags.outputFileDir != "" && flags.packageName != ""
    requires ResolveSdkVersion(flags.sdkVersion, host).version == Ok(version)
    requires flags.queryFilePath != "" ==> host.queryFile.Some?
    requires host.edgeURLParses
    requires host.send(RequestFor(flags, version, host)).Reply?
    requires host.send(RequestFor(flags, version, host)).status != 200
    ensures var reply := host.send(RequestFor(flags, version, host));
            Run(flags, host).result == Err(CodegenStatus(reply.status, reply.body))
    ensures forall e :: e in Run(flags, host).trace ==> !e.MkdirAll? && !e.WriteFile? && !e.Announce?
  {
  }
}

=== FILE: node_iterator.dfy ===
/**
 * The item iterator of node.go (newNodeIterator). The native cursor is a
 * script of the replies `node_iterator_next` gives, in order; the consumer
 * (the `yield` callback of a range-over-func loop) is a function of the
 * position and the node it is offered.
 */
module NodeIterator {
  import opened Nodes

  /** `NodeIteratorState` is a `uint32`; only `Consumed` (1) is checked for,
      and every other value, `MaybeMore` (0) included, keeps the cursor going. */
  const Consumed: u32 := 1

  /** What `node_get_items` returns. */
  datatype IteratorResult = IteratorResult(id: u32, error: bool)

  /** One reply of `node_iterator_next`. */
  datatype Step = Step(node: NodeResult, error: bool, state: u32)

  /** Whether a reply ends the iteration; exhaustion is checked before the
      error flag. */
  datatype Ending =
    | GetItemsFailed
    | CursorConsumed
    | CursorError
    | ConsumerStopped
    | ScriptExhausted   // the script has no further reply; not a Go outcome

  /** The nodes offered to the consumer, the number of `node_iterator_next`
      calls made, and why the iteration ended. */
  datatype Run = Run(yielded: seq<Node>, nextCalls: nat, ending: Ending)

  predicate Ends(s: Step) {
    s.state == Consumed || s.error
  }

  /** Nodes are only built from replies that do not end the iteration. */
  predicate WellFormedScript(steps: seq<Step>) {
    forall i :: 0 <= i < |steps| ==> !Ends(steps[i]) ==> WellFormedResult(steps[i].node)
  }

  predicate EndedByCursor(e: Ending) {
    e == CursorConsumed || e == CursorError
  }

  /** The replies from `steps` onwards, `k` nodes having been offered already. */
  function Drive(steps: seq<Step>, k: nat, consumer: (nat, Node) -> bool): (r: Run)
    requires WellFormedScript(steps)
    decreases |steps|
    ensures r.ending != GetItemsFailed
    ensures |r.yielded| <= |steps|
    ensures forall i :: 0 <= i < |r.yielded| ==>
              !Ends(steps[i]) && r.yielded[i] == NewNode(steps[i].node)
    ensures forall i :: 0 <= i < |r.yielded| ==>
              (consumer(k + i, r.yielded[i]) <==> !(r.ending == ConsumerStopped && i == |r.yielded| - 1))
    ensures r.ending == ConsumerStopped ==> |r.yielded| > 0
    ensures r.ending == CursorConsumed ==>
              |r.yielded| < |steps| && steps[|r.yielded|].state == Consumed
    ensures r.ending == CursorError ==>
              |r.yielded| < |steps| && steps[|r.yielded|].state != Consumed && steps[|r.yielded|].error
    ensures r.ending == ScriptExhausted ==> |r.yielded| == |steps|
    ensures r.nextCalls == |r.yielded| + (if EndedByCursor(r.ending) then 1 else 0)
  {
    if steps == [] then
      Run([], 0, ScriptExhausted)
    else if steps[0].state == Consumed then
      Run([], 1, CursorConsumed)
    else if steps[0].error then
      Run([], 1, CursorError)
    else
      var n := NewNode(steps[0].node);
      if !consumer(k, n) then
        Run([n], 1, ConsumerStopped)
      else
        var rest := Drive(steps[1..], k + 1, consumer);
        Run([n] + rest.yielded, 1 + rest.nextCalls, rest.ending)
  }

  /** The sequence newNodeIterator produces, run to its end. */
  function Iterate(it: IteratorResult, steps: seq<Step>, consumer: (nat, Node) -> bool): (r: Run)
    requires WellFormedScript(steps)
    ensures it.error <==> r.ending == GetItemsFailed
    ensures it.error ==> r.yielded == [] && r.nextCalls == 0
  {
    if it.error then Run([], 0, GetItemsFailed) else Drive(steps, 0, consumer)
  }

  /** Prefixes the nodes already offered to the rest of a run. */
  function After(done: seq<Node>, rest: Run): Run {
    Run(done + rest.yielded, |done| + rest.nextCalls, rest.ending)
  }

  /** The Go loop itself: call `node_iterator_next` until the cursor is
      consumed, flags an error or the consumer declines. */
  method IterateItems(it: IteratorResult, steps: seq<Step>, consumer: (nat, Node) -> bool)
    returns (yielded: seq<Node>, nextCalls: nat, ending: Ending)
    requires WellFormedScript(steps)
    ensures Run(yielded, nextCalls, ending) == Iterate(it, steps, consumer)
  {
    if it.error {
      return [], 0, GetItemsFailed;
    }
    yielded, nextCalls := [], 0;
    var i := 0;
    while true
      invariant 0 <= i <= |steps|
      invariant nextCalls == i == |yielded|
      invariant Drive(steps, 0, consumer) == After(yielded, Drive(steps[i..], i, consumer))
      decreases |steps| - i
    {
      SuffixWellFormed(steps, i);
      if i == |steps| {
        return yielded, nextCalls, ScriptExhausted;
      }
      var step := steps[i];
      nextCalls := nextCalls + 1;
      if step.state == Consumed {
        return yielded, nextCalls, CursorConsumed;
      }
      if step.error {
        return yielded, nextCalls, CursorError;
      }
      var n := NewNode(step.node);
      if !consumer(i, n) {
        return yielded + [n], nextCalls, ConsumerStopped;
      }
      DriveContinues(steps, i, consumer);
      yielded := yielded + [n];
      i := i + 1;
    }
  }

  lemma SuffixWellFormed(steps: seq<Step>, i: nat)
    requires WellFormedScript(steps) && i <= |steps|
    ensures WellFormedScript(steps[i..])
  {
  }

  /** One reply that neither ends the iteration nor meets a refusal. */
  lemma DriveContinues(steps: seq<Step>, i: nat, consumer: (nat, Node) -> bool)
    requires WellFormedScript(steps) && i < |steps|
    requires !Ends(steps[i])
    requires consumer(i, NewNode(steps[i].node))
    ensures WellFormedScript(steps[i + 1..])
    ensures forall done: seq<Node> ::
              After(done, Drive(steps[i..], i, consumer))
              == After(done + [NewNode(steps[i].node)], Drive(steps[i + 1..], i + 1, consumer))
  {
    SuffixWellFormed(steps, i);
    SuffixWellFormed(steps, i + 1);
    assert steps[i..][1..] == steps[i + 1..];
    var rest := Drive(steps[i + 1..], i + 1, consumer);
    assert Drive(steps[i..], i, consumer)
           == Run([NewNode(steps[i].node)] + rest.yielded, 1 + rest.nextCalls, rest.ending);
    forall done: seq<Node>
      ensures After(done, Drive(steps[i..], i, consumer))
              == After(done + [NewNode(steps[i].node)], rest)
    {
      assert done + ([NewNode(steps[i].node)] + rest.yielded)
             == (done + [NewNode(steps[i].node)]) + rest.yielded;
    }
  }

  /** A cursor that reports exhaustion after N nodes, read by a consumer that
      never stops, yields exactly those N nodes with N + 1 calls. */
  lemma {:induction false} ExhaustionAfterN(steps: seq<Step>, k: nat, consumer: (nat, Node) -> bool)
    requires WellFormedScript(steps)
    requires |steps| > 0 && steps[|steps| - 1].state == Consumed
    requires forall i :: 0 <= i < |steps| - 1 ==> !Ends(steps[i])
    requires forall i: nat, n: Node :: consumer(i, n)
    ensures Drive(steps, k, consumer).ending == CursorConsumed
    ensures |Drive(steps, k, consumer).yielded| == |steps| - 1
    ensures Drive(steps, k, consumer).nextCalls == |steps|
    decreases |steps|
  {
    if |steps| > 1 {
      assert WellFormedScript(steps[1..]) by {
        forall i | 0 <= i < |steps[1..]| ensures !Ends(steps[1..][i]) ==> WellFormedResult(steps[1..][i].node) {
          assert steps[1..][i] == steps[i + 1];
        }
      }
      ExhaustionAfterN(steps[1..], k + 1, consumer);
    }
  }
}

=== FILE: node_types.dfy ===
/**
 * The typed accessors of node_types.go. Each `Get` evaluates its node and
 * either returns the coerced value or the caller's fallback; a mismatch is
 * reported through one "unexpected value" log call. The native log call
 * ignores its argument, so a log call is modelled as a count.
 */
module NodeTypes {
  import opened Wrappers
  import opened Nodes

  /** The value a `Get` returns and the number of log calls it made. */
  datatype Got<T> = Got(value: T, logs: nat)

  /** The numeric forms the Int and Float accessors' type switches accept. */
  const AcceptedNumKinds: set<NumKind> := {GoInt, Int32, Float32, Int64, Float64}

  /** The policy every value-returning accessor shares: evaluation failure
      gives the fallback silently, a value `coerce` rejects gives the fallback
      and one log, anything else gives the coerced value. */
  function Accessor<T>(e: Evaluation, fallback: T, coerce: Dynamic -> Option<T>): Got<T>
  {
    match e
    case Failed(_) => Got(fallback, 0)
    case Value(v) =>
      match coerce(v)
      case None => Got(fallback, 1)
      case Some(x) => Got(x, 0)
  }

  function AsBool(v: Dynamic): Option<bool> {
    if v.Bool? then Some(v.b) else None
  }

  /** Integer-valued numbers only: `int(v)` and `float64(v)` leave them unchanged. */
  function AsInt(v: Dynamic): Option<int> {
    if v.Num? && v.kind in AcceptedNumKinds then Some(v.n) else None
  }

  function AsFloat(v: Dynamic): Option<real> {
    if v.Num? && v.kind in AcceptedNumKinds then Some(v.n as real) else None
  }

  function AsString(v: Dynamic): Option<string> {
    if v.Str? then Some(v.s) else None
  }

  function AsEnum(allowed: seq<string>): Dynamic -> Option<string> {
    (v: Dynamic) => if v.Str? && v.s != "" && v.s in allowed then Some(v.s) else None
  }

  /** BoolNode.Get */
  function BoolGet(e: Evaluation, fallback: bool): (r: Got<bool>)
    ensures r.logs <= 1
    ensures e.Failed? ==> r == Got(fallback, 0)
    ensures r.logs == 1 <==> e.Value? && !e.v.Bool?
    ensures r.logs == 1 ==> r.value == fallback
    ensures e.Value? && e.v.Bool? ==> r.value == e.v.b
  {
    Accessor(e, fallback, AsBool)
  }

  /** IntNode.Get */
  function IntGet(e: Evaluation, fallback: int): (r: Got<int>)
    ensures r.logs <= 1
    ensures e.Failed? ==> r == Got(fallback, 0)
    ensures r.logs == 1 <==> e.Value? && !(e.v.Num? && e.v.kind in AcceptedNumKinds)
    ensures r.logs == 1 ==> r.value == fallback
    ensures e.Value? && e.v.Num? && e.v.kind in AcceptedNumKinds ==> r.value == e.v.n
  {
    Accessor(e, fallback, AsInt)
  }

  /** FloatNode.Get */
  function FloatGet(e: Evaluation, fallback: real): (r: Got<real>)
    ensures r.logs <= 1
    ensures e.Failed? ==> r == Got(fallback, 0)
    ensures r.logs == 1 <==> e.Value? && !(e.v.Num? && e.v.kind in AcceptedNumKinds)
    ensures r.logs == 1 ==> r.value == fallback
    ensures e.Value? && e.v.Num? && e.v.kind in AcceptedNumKinds ==> r.value == e.v.n as real
  {
    Accessor(e, fallback, AsFloat)
  }

  /** StringNode.Get: every decoded string is accepted, the empty one included. */
  function StringGet(e: Evaluation, fallback: string): (r: Got<string>)
    ensures r.logs <= 1
    ensures e.Failed? ==> r == Got(fallback, 0)
    ensures r.logs == 1 <==> e.Value? && !e.v.Str?
    ensures r.logs == 1 ==> r.value == fallback
    ensures e.Value? && e.v.Str? ==> r.value == e.v.s
  {
    Accessor(e, fallback, AsString)
  }

  /** EnumNode.Get: a decoded string is returned only when it is non-empty and
      one of the allowed values. */
  function EnumGet(allowed: seq<string>, e: Evaluation, fallback: string): (r: Got<string>)
    ensures r.logs <= 1
    ensures e.Failed? ==> r == Got(fallback, 0)
    ensures r.logs == 1 <==> e.Value? && !(e.v.Str? && e.v.s != "" && e.v.s in allowed)
    ensures r.logs == 1 ==> r.value == fallback
    ensures r.value == fallback || (r.value != "" && r.value in allowed)
    ensures e.Value? && e.v.Str? && e.v.s != "" && e.v.s in allowed ==> r == Got(e.v.s, 0)
  {
    Accessor(e, fallback, AsEnum(allowed))
  }

  /** VoidNode.Get returns nothing; only whether it logged is observable. */
  function VoidGet(e: Evaluation): (logs: nat)
    ensures logs <= 1
    ensures logs == 1 <==> e.Value? && e.v != Bool(true)
  {
    match e
    case Failed(_) => 0
    case Value(v) => if v.Bool? && v.b then 0 else 1
  }

  /** A failed evaluation (engine error or decode error) is absorbed by every
      accessor: the fallback comes back and nothing is logged. */
  lemma FailureIsAbsorbed(reason: EvalError, allowed: seq<string>,
                          b: bool, i: int, f: real, s: string, en: string)
    ensures BoolGet(Failed(reason), b) == Got(b, 0)
    ensures IntGet(Failed(reason), i) == Got(i, 0)
    ensures FloatGet(Failed(reason), f) == Got(f, 0)
    ensures StringGet(Failed(reason), s) == Got(s, 0)
    ensures EnumGet(allowed, Failed(reason), en) == Got(en, 0)
    ensures VoidGet(Failed(reason)) == 0
  {
  }

  /** An empty or null native buffer with no error is a mismatch for every
      value-returning accessor, and the Void accessor logs it too. */
  lemma AbsentValueIsMismatch(r: NativeEvaluation, decode: Bytes -> Option<Dynamic>,
                              allowed: seq<string>,
                              b: bool, i: int, f: real, s: string, en: string)
    requires ReadableEvaluation(r)
    requires !r.error && (r.buffer.None? || r.length == 0)
    ensures BoolGet(Evaluate(r, decode), b) == Got(b, 1)
    ensures IntGet(Evaluate(r, decode), i) == Got(i, 1)
    ensures FloatGet(Evaluate(r, decode), f) == Got(f, 1)
    ensures StringGet(Evaluate(r, decode), s) == Got(s, 1)
    ensures EnumGet(allowed, Evaluate(r, decode), en) == Got(en, 1)
    ensures VoidGet(Evaluate(r, decode)) == 1
  {
  }

  /** A native error flag yields the fallback whatever the buffer holds. */
  lemma NativeErrorIgnoresBuffer(r: NativeEvaluation, decode: Bytes -> Option<Dynamic>, s: string)
    requires ReadableEvaluation(r)
    requires r.error
    ensures StringGet(Evaluate(r, decode), s) == Got(s, 0)
    ensures VoidGet(Evaluate(r, decode)) == 0
  {
  }

  /** The empty string is rejected by the Enum accessor even when it is one of
      the allowed values, while the String accessor accepts it. */
  lemma EmptyEnumRejected(allowed: seq<string>, fallback: string)
    requires "" in allowed
    ensures EnumGet(allowed, Value(Str("")), fallback) == Got(fallback, 1)
    ensures StringGet(Value(Str("")), fallback) == Got("", 0)
  {
  }

  /** Every accepted numeric form of the same number gives the same result,
      as an int and as a float. */
  lemma NumericFormsAgree(k1: NumKind, k2: NumKind, n: int, fi: int, ff: real)
    requires k1 in AcceptedNumKinds && k2 in AcceptedNumKinds
    ensures IntGet(Value(Num(k1, n)), fi) == IntGet(Value(Num(k2, n)), fi) == Got(n, 0)
    ensures FloatGet(Value(Num(k1, n)), ff) == FloatGet(Value(Num(k2, n)), ff) == Got(n as real, 0)
  {
  }

  /** The Void accessor succeeds silently on `true` only; `false` logs. */
  lemma VoidNeedsTrue()
    ensures VoidGet(Value(Bool(true))) == 0
    ensures VoidGet(Value(Bool(false))) == 1
    ensures VoidGet(Value(Nil)) == 1
  {
  }
}

=== FILE: nodes.dfy ===
/**
 * The node wrapper of node.go: node-type tags, building a node from a native
 * result, reading sized strings and the three-way branching of Evaluate.
 * Every native handle and native call is an abstract value here.
 */
module Nodes {
  import opened Wrappers

  /** C `uint32_t` / Go `uint32`. */
  newtype u32 = x: int | 0 <= x < 0x1_0000_0000

  newtype byte = x: int | 0 <= x < 0x100

  type Bytes = seq<byte>

  /** `NodeType` is a `uint32`; the named tags are 0..7 in declaration order,
      and any other tag can still arrive from the native library. */
  type NodeType = u32

  const NodeTypeString: NodeType := 0
  const NodeTypeEnum: NodeType := 1
  const NodeTypeInt: NodeType := 2
  const NodeTypeFloat: NodeType := 3
  const NodeTypeBool: NodeType := 4
  const NodeTypeObject: NodeType := 5
  const NodeTypeVoid: NodeType := 6
  const NodeTypeUnknown: NodeType := 7

  predicate IsStringNodeType(t: NodeType) {
    t == NodeTypeString || t == NodeTypeEnum
  }

  predicate IsNumberNodeType(t: NodeType) {
    t == NodeTypeFloat || t == NodeTypeInt
  }

  /** The two classes are disjoint and hold for exactly two tags each. */
  lemma NodeTypeClasses(t: NodeType)
    ensures !(IsStringNodeType(t) && IsNumberNodeType(t))
    ensures IsStringNodeType(t) <==> t in {NodeTypeString, NodeTypeEnum}
    ensures IsNumberNodeType(t) <==> t in {NodeTypeInt, NodeTypeFloat}
    ensures t == NodeTypeObject || t == NodeTypeBool || t == NodeTypeVoid || t == NodeTypeUnknown
            ==> !IsStringNodeType(t) && !IsNumberNodeType(t)
  {
  }

  /** A native `SizedString`: a byte buffer and the number of bytes to read. */
  datatype SizedString = SizedString(bytes: Bytes, length: u32)

  /** The native library promises that `length` bytes can be read. */
  predicate Readable(s: SizedString) {
    s.length as int <= |s.bytes|
  }

  /** A zero length means "no string"; otherwise the first `length` bytes. */
  function ReadSizedString(s: SizedString): (r: Option<Bytes>)
    requires Readable(s)
    ensures r.None? <==> s.length == 0
    ensures r.Some? ==> |r.value| == s.length as int && r.value <= s.bytes
  {
    if s.length == 0 then None else Some(s.bytes[..s.length])
  }

  /** A native `NodeResult`. */
  datatype NodeResult = NodeResult(
    id: u32,
    error: bool,
    nodeType: u32,
    enumValue: SizedString,
    objectTypeName: SizedString)

  /** The metadata strings are only read when the error flag is clear. */
  predicate WellFormedResult(res: NodeResult) {
    !res.error ==> Readable(res.enumValue) && Readable(res.objectTypeName)
  }

  /** The Go `Node` record; `handle` is the opaque native handle. */
  datatype Node = Node(
    handle: u32,
    error: bool,
    nodeType: NodeType,
    enumValue: Option<Bytes>,
    objectTypeName: Option<Bytes>)

  /** newNode: handle, error flag and type are copied verbatim; the metadata
      strings are read only when the result carries no error. */
  function NewNode(res: NodeResult): (n: Node)
    requires WellFormedResult(res)
    ensures n.handle == res.id && n.error == res.error && n.nodeType == res.nodeType
    ensures n.error ==> n.enumValue.None? && n.objectTypeName.None?
    ensures !n.error ==> (n.enumValue.Some? <==> res.enumValue.length != 0)
    ensures !n.error ==> (n.objectTypeName.Some? <==> res.objectTypeName.length != 0)
    ensures n.enumValue.Some? ==>
              n.enumValue.value <= res.enumValue.bytes && |n.enumValue.value| == res.enumValue.length as int
    ensures n.objectTypeName.Some? ==>
              n.objectTypeName.value <= res.objectTypeName.bytes
              && |n.objectTypeName.value| == res.objectTypeName.length as int
  {
    if res.error then
      Node(res.id, true, res.nodeType, None, None)
    else
      Node(res.id, false, res.nodeType,
           ReadSizedString(res.enumValue), ReadSizedString(res.objectTypeName))
  }

  /** The Go numeric types a decoded value can have. The accessors accept the
      first five; `OtherNumeric` stands for every other Go numeric type. */
  datatype NumKind = GoInt | Int32 | Float32 | Int64 | Float64 | OtherNumeric

  /** A decoded Go `any`. `Nil` is both "no value" (empty buffer) and a
      decoded JSON `null`; `Structured` is a decoded object or array. */
  datatype Dynamic =
    | Nil
    | Bool(b: bool)
    | Num(kind: NumKind, n: int)
    | Str(s: string)
    | Structured

  datatype EvalError = EngineError | DecodeError

  /** What `Evaluate` hands back: a non-nil `error`, or a value. */
  datatype Evaluation = Failed(reason: EvalError) | Value(v: Dynamic)

  /** A native evaluation result: a possibly null buffer, its length and the
      error flag. */
  datatype NativeEvaluation = NativeEvaluation(buffer: Option<Bytes>, length: u32, error: bool)

  /** The native library promises `length` readable bytes behind a non-null buffer. */
  predicate ReadableEvaluation(r: NativeEvaluation) {
    r.buffer.Some? ==> r.length as int <= |r.buffer.value|
  }

  /** Evaluate: the error flag wins over the buffer; a null or empty buffer is
      "no value" and not an error; otherwise the first `length` bytes are
      decoded, and a decode failure is an error. `decode` stands for JSON
      decoding into `any`. */
  function Evaluate(r: NativeEvaluation, decode: Bytes -> Option<Dynamic>): (e: Evaluation)
    requires ReadableEvaluation(r)
    ensures e == Failed(EngineError) <==> r.error
    ensures !r.error && (r.buffer.None? || r.length == 0) ==> e == Value(Nil)
    ensures e == Failed(DecodeError) ==>
              !r.error && r.buffer.Some? && r.length != 0
              && decode(r.buffer.value[..r.length]).None?
    ensures !r.error && r.buffer.Some? && r.length != 0 ==>
              var decoded := decode(r.buffer.value[..r.length]);
              && (decoded.None? <==> e == Failed(DecodeError))
              && (decoded.Some? ==> e == Value(decoded.value))
    ensures e.Value? && e.v != Nil ==>
              r.buffer.Some? && r.length != 0
              && decode(r.buffer.value[..r.length]) == Some(e.v)
  {
    if r.error then
      Failed(EngineError)
    else if r.buffer.None? || r.length == 0 then
      Value(Nil)
    else
      match decode(r.buffer.value[..r.length])
      case None => Failed(DecodeError)
      case Some(v) => Value(v)
  }
}

=== FILE: options.dfy ===
/**
 * The SDK options of options.go: the `With*` setters, their left-to-right
 * application to an all-unset record, and the projection of that record to
 * the configuration map handed to the native constructor.
 */
module Options {
  import opened Wrappers

  /** Go `int64`. */
  newtype i64 = x: int | -0x8000_0000_0000_0000 <= x < 0x8000_0000_0000_0000

  /** `time.Duration`: an `int64` count of nanoseconds. */
  type Duration = i64

  const Millisecond: int := 1_000_000

  /** The value `language` holds (sdk.go:19). */
  const Language: string := "go"

  datatype SdkOptions = SdkOptions(
    branchName: Option<string>,
    initDataRefreshInterval: Option<Duration>,
    logsFlushInterval: Option<Duration>,
    edgeBaseURL: Option<string>,
    remoteLoggingBaseURL: Option<string>)

  /** The record `parseOptions` starts from: every field nil. */
  const Unset: SdkOptions := SdkOptions(None, None, None, None, None)

  /** The five option constructors; the Go closures they return are
      represented by the constructor and its argument. */
  datatype SdkOption =
    | WithBranchName(branchName: string)
    | WithInitDataRefreshInterval(interval: Duration)
    | WithLogsFlushInterval(interval: Duration)
    | WithEdgeBaseURL(url: string)
    | WithRemoteLoggingBaseURL(baseUrl: string)

  datatype Field = BranchName | InitDataRefreshInterval | LogsFlushInterval | EdgeBaseURL | RemoteLoggingBaseURL

  /** A field's content, whichever its Go type. */
  datatype Setting = Text(s: string) | Interval(d: Duration)

  function Target(o: SdkOption): Field {
    match o
    case WithBranchName(_) => BranchName
    case WithInitDataRefreshInterval(_) => InitDataRefreshInterval
    case WithLogsFlushInterval(_) => LogsFlushInterval
    case WithEdgeBaseURL(_) => EdgeBaseURL
    case WithRemoteLoggingBaseURL(_) => RemoteLoggingBaseURL
  }

  function Payload(o: SdkOption): Setting {
    match o
    case WithBranchName(s) => Text(s)
    case WithInitDataRefreshInterval(d) => Interval(d)
    case WithLogsFlushInterval(d) => Interval(d)
    case WithEdgeBaseURL(s) => Text(s)
    case WithRemoteLoggingBaseURL(s) => Text(s)
  }

  function FieldValue(opts: SdkOptions, f: Field): Option<Setting> {
    match f
    case BranchName => if opts.branchName.Some? then Some(Text(opts.branchName.value)) else None
    case InitDataRefreshInterval =>
      if opts.initDataRefreshInterval.Some? then Some(Interval(opts.initDataRefreshInterval.value)) else None
    case LogsFlushInterval =>
      if opts.logsFlushInterval.Some? then Some(Interval(opts.logsFlushInterval.value)) else None
    case EdgeBaseURL => if opts.edgeBaseURL.Some? then Some(Text(opts.edgeBaseURL.value)) else None
    case RemoteLoggingBaseURL =>
      if opts.remoteLoggingBaseURL.Some? then Some(Text(opts.remoteLoggingBaseURL.value)) else None
  }

  /** Running one option's closure: it sets its own field, verbatim, and
      leaves the other four as they were. */
  function Apply(opts: SdkOptions, o: SdkOption): (r: SdkOptions)
    ensures FieldValue(r, Target(o)) == Some(Payload(o))
    ensures forall f :: f != Target(o) ==> FieldValue(r, f) == FieldValue(opts, f)
  {
    match o
    case WithBranchName(s) => opts.(branchName := Some(s))
    case WithInitDataRefreshInterval(d) => opts.(initDataRefreshInterval := Some(d))
    case WithLogsFlushInterval(d) => opts.(logsFlushInterval := Some(d))
    case WithEdgeBaseURL(s) => opts.(edgeBaseURL := Some(s))
    case WithRemoteLoggingBaseURL(s) => opts.(remoteLoggingBaseURL := Some(s))
  }

  /** The `for _, option := range opts` loop: options applied left to right. */
  function ApplyAll(opts: SdkOptions, os: seq<SdkOption>): SdkOptions
    decreases |os|
  {
    if os == [] then opts else ApplyAll(Apply(opts, os[0]), os[1..])
  }

  /** Reference reading of "last wins": the payload of the right-most option
      that targets `f`, if any. */
  function LastSetting(os: seq<SdkOption>, f: Field): (r: Option<Setting>)
    decreases |os|
    ensures r.Some? <==> exists i :: 0 <= i < |os| && Target(os[i]) == f
    ensures r.Some? ==> exists i :: 0 <= i < |os| && Target(os[i]) == f && r.value == Payload(os[i])
                          && forall j :: i < j < |os| ==> Target(os[j]) != f
  {
    if os == [] then None
    else if Target(os[|os| - 1]) == f then Some(Payload(os[|os| - 1]))
    else LastSetting(os[..|os| - 1], f)
  }

  /** Applying one more option after a fold is the same as folding it in last. */
  lemma {:induction false} ApplyAllSnoc(opts: SdkOptions, os: seq<SdkOption>, o: SdkOption)
    ensures ApplyAll(opts, os + [o]) == Apply(ApplyAll(opts, os), o)
    decreases |os|
  {
    if os != [] {
      assert (os + [o])[1..] == os[1..] + [o];
      ApplyAllSnoc(Apply(opts, os[0]), os[1..], o);
    }
  }

  /** Last wins: after folding `os` into `opts`, a field holds the payload of
      the last option that targets it, and keeps its old value when none does. */
  lemma {:induction false} LastWins(opts: SdkOptions, os: seq<SdkOption>, f: Field)
    ensures FieldValue(ApplyAll(opts, os), f)
            == (if LastSetting(os, f).Some? then LastSetting(os, f) else FieldValue(opts, f))
    decreases |os|
  {
    if os != [] {
      var init, o := os[..|os| - 1], os[|os| - 1];
      assert os == init + [o];
      ApplyAllSnoc(opts, init, o);
      LastWins(opts, init, f);
    }
  }

  /** A configuration map value: a JSON string or a JSON integer. */
  datatype ConfigValue = StringValue(s: string) | IntValue(n: int)

  function ConfigKey(f: Field): string {
    match f
    case BranchName => "branch_name"
    case InitDataRefreshInterval => "init_data_refresh_interval_ms"
    case LogsFlushInterval => "logs_flush_interval_ms"
    case EdgeBaseURL => "edge_base_url"
    case RemoteLoggingBaseURL => "remote_logging_base_url"
  }

  /** Every key the configuration map can hold. */
  const ConfigKeys: set<string> :=
    {"language", "branch_name", "init_data_refresh_interval_ms", "logs_flush_interval_ms",
     "edge_base_url", "remote_logging_base_url"}

  /** `d / time.Millisecond` on `int64`: Go's division truncates toward zero,
      so the remainder takes the sign of `d`. */
  function Millis(d: Duration): (r: i64)
    ensures var rem := d as int - r as int * Millisecond;
            -Millisecond < rem < Millisecond && (rem == 0 || (rem > 0 <==> d > 0))
    ensures d == 0 ==> r == 0
    ensures (r > 0 ==> d > 0) && (r < 0 ==> d < 0)
  {
    var q := if d >= 0 then d as int / Millisecond else -((-(d as int)) / Millisecond);
    q as i64
  }

  function Entry(s: Setting): ConfigValue {
    match s
    case Text(t) => StringValue(t)
    case Interval(d) => IntValue(Millis(d) as int)
  }

  /** The `configMap` built from the folded record. */
  function Project(opts: SdkOptions): map<string, ConfigValue> {
    var m0 := map["language" := StringValue(Language)];
    var m1 := if opts.branchName.Some? then m0["branch_name" := StringValue(opts.branchName.value)] else m0;
    var m2 := if opts.initDataRefreshInterval.Some?
              then m1["init_data_refresh_interval_ms" := IntValue(Millis(opts.initDataRefreshInterval.value) as int)]
              else m1;
    var m3 := if opts.logsFlushInterval.Some?
              then m2["logs_flush_interval_ms" := IntValue(Millis(opts.logsFlushInterval.value) as int)]
              else m2;
    var m4 := if opts.edgeBaseURL.Some? then m3["edge_base_url" := StringValue(opts.edgeBaseURL.value)] else m3;
    if opts.remoteLoggingBaseURL.Some?
    then m4["remote_logging_base_url" := StringValue(opts.remoteLoggingBaseURL.value)]
    else m4
  }

  /** A field's key is in the projected map exactly when the field is set,
      and then maps to the field's converted content. */
  lemma ProjectFields(opts: SdkOptions)
    ensures "language" in Project(opts) && Project(opts)["language"] == StringValue(Language)
    ensures Project(opts).Keys <= ConfigKeys
    ensures forall f :: ConfigKey(f) in Project(opts) <==> FieldValue(opts, f).Some?
    ensures forall f :: ConfigKey(f) in Project(opts) ==>
              Project(opts)[ConfigKey(f)] == Entry(FieldValue(opts, f).value)
  {
  }

  /** parseOptions */
  function ParseOptions(os: seq<SdkOption>): (m: map<string, ConfigValue>)
    ensures "language" in m && m["language"] == StringValue(Language)
    ensures m.Keys <= ConfigKeys
    ensures forall f :: ConfigKey(f) in m <==> exists i :: 0 <= i < |os| && Target(os[i]) == f
    ensures forall f :: ConfigKey(f) in m ==> m[ConfigKey(f)] == Entry(LastSetting(os, f).value)
  {
    var opts := ApplyAll(Unset, os);
    ProjectFields(opts);
    forall f ensures FieldValue(opts, f) == LastSetting(os, f) {
      LastWins(Unset, os, f);
    }
    Project(opts)
  }

  /** With no options the map holds `language` and nothing else. */
  lemma NoOptions()
    ensures ParseOptions([]) == map["language" := StringValue(Language)]
  {
  }

  /** Strings are stored verbatim (the empty one too) and intervals as whole
      milliseconds; the last of two settings of a field is the one kept. */
  lemma LaterOptionOverrides(os: seq<SdkOption>, a: SdkOption, b: SdkOption)
    requires Target(a) == Target(b)
    ensures ConfigKey(Target(b)) in ParseOptions(os + [a, b])
    ensures ParseOptions(os + [a, b])[ConfigKey(Target(b))] == Entry(Payload(b))
  {
    var all := os + [a, b];
    assert all[|all| - 1] == b;
  }
}

=== FILE: wrappers.dfy ===
/** Failure-carrying datatypes shared by every module of the model. */
module Wrappers {

  /** A Go nil-able reference (`*string`, `*time.Duration`, ...): None is nil. */
  datatype Option<+T> = None | Some(value: T)

  /** A Go `(value, error)` pair in which exactly one side is meaningful. */
  datatype Result<+T, +E> = Ok(value: T) | Err(error: E)
}
